=== FILE: README.md ===
# serde_traitobject — a Dafny model of its wire protocol

`serde_traitobject` makes Rust trait objects (`Box<dyn Trait>`,
`Rc<dyn Trait>`, `Arc<dyn Trait>`) serializable with serde between
invocations of the same binary. Its `serialize` and `deserialize` pick one of
three encodings, depending on the static type, through specialisation:

- a **sized** value is written by its own serde implementation;
- **`str`** and **`[T]`** use serde's native string and sequence encodings;
- a **trait object** is written as a 3-tuple envelope. The elements are:
  1. a *relative vtable reference*: the vtable address as an offset from a
     static anchor vtable, plus the build id and the trait object's `type_id`;
  2. the `type_id` of the concrete type;
  3. the concrete value, written by its own serde implementation.

Reading an envelope runs in a fixed order:

1. The reference is checked. A wrong build id or trait `type_id` is a
   recoverable error.
2. The offset is turned into an address, which is used as a vtable without
   any check. If no vtable for the trait lies there, the rest is undefined
   behaviour.
3. The concrete `type_id` is compared with the one that vtable reports. A
   mismatch is a panic.
4. The payload is decoded by the concrete type's deserializer, into a slot
   that was laid out uninitialised in step 2. Its errors are re-raised as
   custom errors. If the payload is missing or fails, the uninitialised slot
   is dropped first. For a concrete type with a destructor (`String`, `Vec`,
   the wrappers) that is undefined behaviour.

The crate's `Box`, `Rc` and `Arc` wrappers hand their contents to this core,
and add nothing to the wire. The serde implementations for the standard
`Box<dyn Any>`, `Box<dyn Error>`, `Box<dyn Display>`, `Box<dyn Debug>` and
the `Fn` traits go through the `Box` wrapper. `into_any` turns the crate's
`Box<dyn Any>` into the standard one, so that it can be downcast.

The model's modules:

- `Wire` (`wire.dfy`) is the serde data model as far as the protocol uses it.
  It has integers, strings, sequences and tuples. It also has the four
  outcomes of a decode: a value, a recoverable error, a panic (`Abort`), and
  undefined behaviour (`Undefined`).
- `Image` (`image.dfy`) holds the static types, the runtime values, and the
  image of one running process. A trait object is a vtable address plus
  data. A process has a vtable map, an anchor, a build id and a `type_id`
  function.
- `Relative` (`relative.dfy`) covers relative vtable references. It holds
  the 64-bit wrap-around arithmetic, relocation of a whole image by a
  displacement, and the reference's writer and checked reader.
- `Protocol` (`protocol.dfy`) holds `serialize` and `deserialize` for all
  three shapes, with the envelope reader's state machine.
- `Properties` (`properties.dfy`) holds the round trip across relocated
  invocations, the shape of the wire, and each error path.
- `Convenience` (`convenience.dfy`) holds the wrappers, the standard-box
  serde implementations, `into_any` and downcasting.
- `Intended` (`intended.dfy`) holds the envelope reader as the TODO at
  src/lib.rs:449 intends it: a failed payload frees the slot without its
  destructor and returns the error. See "## Findings".
- `Scenarios` (`scenarios.dfy`) plays out two of the crate's tests
  (tests/test.rs:137-145 and 190-197) on a small example binary loaded at two
  addresses. ForgedOffsetScenario, PayloadFailureScenario and
  StringPayloadFailureScenario illustrate src/lib.rs:92, 480-485 and 449.

Two things the program does not see are parameters of the model:

- **Type ids.** `Binary.typeId`, the `type_id` intrinsic, is a given total
  function, and `Binary.buildId` is a given 128-bit number.
- **Addresses.** Vtable addresses are those of a given `Process`. Another
  invocation of the same binary is a process related by `Relocated`: the same
  binary, with every vtable and the anchor moved by one displacement, modulo
  2^64.

## Model

| member | source | states |
|---|---|---|
| Relative.Offset | src/lib.rs:87 | the offset of a vtable from the anchor, taken modulo 2^64, resolves against the same anchor to that vtable |
| Relative.OffsetInvariant | src/lib.rs:87 | the relative offset does not change when anchor and vtable are loaded elsewhere by the same displacement |
| Relative.RelocatedResolve | src/lib.rs:87 | an offset taken in one invocation resolves, in an invocation loaded `d` bytes further on, to the vtable's new address |
| Relative.RelocatedValid | src/lib.rs:87 | every vtable of a relocated invocation still describes a sized, well-formed concrete type |
| Relative.DecodeVtableRef | src/lib.rs:75-83 | the reference is accepted exactly when it is well laid out and carries this binary's build id and this trait object's `type_id`; a wrong build id is reported before a wrong `type_id`, both as recoverable errors; an accepted offset denotes anchor plus offset, unchecked |
| Relative.VtableRefRoundTrip | src/lib.rs:83-87 | a reference written in one invocation is accepted by a relocated invocation of the same binary and denotes the relocated vtable |
| Relative.ForeignBuildRejected | src/lib.rs:83 | a reference written by a binary with another build id is rejected with a build-id error, whatever trait object type it is read as |
| Relative.OtherTraitObjectRejected | src/lib.rs:83 | a reference written for one trait object type and read as another of a different `type_id` is rejected with a trait error |
| Properties.RelocationPreservesTyping | src/lib.rs:87 | a value well typed in one invocation is, with its vtable addresses moved, well typed in a relocated invocation, with the same vtable records |
| Properties.RoundTrip | src/lib.rs:363-381 | what `serialize` writes, for any well-typed value of any shape, `deserialize` reads back in a relocated invocation of the same binary as the same value with its vtable addresses moved; no panic and no undefined behaviour arises |
| Properties.PlainRoundTrip | src/lib.rs:270-279 | a sized value's own encoding decodes to the same value, relocated, including wrappers and vectors that hold trait objects |
| Properties.ItemsRoundTrip | src/lib.rs:419-427 | a sequence of sized elements, each in its own encoding, decodes element by element to the same sequence, relocated |
| Properties.SameProcessRoundTrip | src/lib.rs:516-523 | inside one invocation, `deserialize` of `serialize` gives back the very same value |
| Properties.NoEnvelope | src/lib.rs:336-362 | sized values, `str` and `[T]` are written with no envelope, exactly as serde writes the sized value, the `String` or the `Vec<T>` |
| Properties.NoEnvelopeDecode | src/lib.rs:401-427 | decoding a sized value, `str` or `[T]` is serde's decoding of the sized value, `String` or `Vec<T>`, on every input |
| Properties.EnvelopeLayout | src/lib.rs:376-380 | a trait object is written as a tuple of exactly three: a reference that reads back as its own vtable, its concrete type's `type_id`, and the concrete value's own encoding |
| Properties.EnvelopeNeedsTuple | src/lib.rs:469 | the envelope reader asks for a tuple; any other input is an invalid-type error |
| Properties.TruncatedEnvelope | src/lib.rs:445-465 | an envelope cut short before element 0, 1 or 2 is an invalid-length error carrying that index, except that one cut before the payload drops the uninitialised slot first, which is undefined behaviour when the concrete type has a destructor |
| Properties.ExtendedEnvelope | src/lib.rs:466-469 | an envelope with an element beyond the three is a trailing-elements error |
| Properties.ConcreteIdMismatchAborts | src/lib.rs:455-459 | element 1 differing from the `type_id` of the concrete type the vtable leads to is a panic, whatever follows, even nothing |
| Properties.PayloadErrorIsCustom | src/lib.rs:460-485 | a payload the concrete type cannot decode is a recoverable custom error wrapping the concrete type's own error when that type has no destructor, and undefined behaviour (the uninitialised slot dropped) when it has one |
| Properties.ForeignBuildRejectedEnvelope | src/lib.rs:83 | a trait object written by another binary is rejected with a build-id error before its vtable is used |
| Properties.OtherTraitObjectRejectedEnvelope | src/lib.rs:83 | a trait object written as one trait object type and read as another of different `type_id` is rejected with a trait error, in any invocation of the same binary |
| Properties.CorruptedOffsetIsUndefined | src/lib.rs:89-92 | an offset corrupted to point at no vtable, or at a vtable of another trait, sent with a genuine build id and trait `type_id`, passes both checks and leads to undefined behaviour |
| Properties.DecodeSound | src/lib.rs:83 | on every input, a value `deserialize` returns is a value of the requested type; invalid input ends in an error, a panic or undefined behaviour, never in an ill-typed value |
| Convenience.ConstructorsAgree | src/convenience.rs:10-21 | `new` and `From<T>` build the same wrapper, which has the wrapper of the value's type exactly when the value has that type, and `into_box` gives back what `new` was given |
| Convenience.WrapperSerializeTransparent | src/convenience.rs:150-157 | a `Box`, `Rc` or `Arc` is written exactly as the core writes its contents |
| Convenience.WrapperDeserializeTransparent | src/convenience.rs:158-165 | a wrapper decodes exactly when its contents do, to the wrapped value; every other outcome is passed on unchanged |
| Convenience.WrappersShareWireFormat | src/convenience.rs:238-253 | what one wrapper kind writes, another reads back with the same contents, since none adds a layer |
| Convenience.DeserializeStdBox | src/convenience.rs:437-444 | decoding a standard `Box<dyn Any>` (or `Error`, `Display`, `Debug`, `Fn` traits) through the crate's `Box` reads exactly what the core reads for the trait object |
| Convenience.SerializeDyn | src/convenience.rs:429-436 | `dyn Any` and the other convenience trait objects are written as a 3-tuple envelope that the standard box decoder reads back to the same value |
| Convenience.IntoAny | src/convenience.rs:22-33 | `into_any` on a `Box<dyn Any>`, and `into_any_send` on a `Box<dyn Any + Send>` (`send` true), keeps the trait object's data and the concrete type its vtable names, and the data is a value of that type |
| Convenience.DowncastToOriginal | src/convenience.rs:395-397 | after `into_any`, a downcast to the type the box was made from succeeds and yields the original value |
| Convenience.DowncastAfterRoundTrip | tests/test.rs:137-145 | a `Box<dyn Any>` sent to a relocated invocation decodes, and downcasts there to its original concrete type, yielding the original value relocated |
| Scenarios.NestedAnyScenario | tests/test.rs:137-145 | a `Box<dyn Any>` nested in another, sent to an invocation loaded elsewhere, downcasts to the inner box, which downcasts to `987654321usize` |
| Scenarios.DebugReadAsAnyScenario | tests/test.rs:190-197 | a `Box<dyn Debug>` holding `78u8` reads back as `Box<dyn Debug>` and is refused as `Box<dyn Any>` with a recoverable error |
| Scenarios.ForgedOffsetScenario | src/lib.rs:92 | a reference with a genuine build id and `dyn Any` `type_id`, whose offset lands on the `dyn Debug` vtable for `u8`, passes both checks and is undefined behaviour |
| Scenarios.PayloadFailureScenario | src/lib.rs:480-485 | a genuine `dyn Any` envelope for a `u8` whose payload is 300 ends in the custom error wrapping the invalid-value error |
| Scenarios.StringPayloadFailureScenario | src/lib.rs:449 | a genuine `dyn Any` envelope for a `String` whose payload is an integer drops the uninitialised `String` slot, which is undefined behaviour |
| Intended.DecodeTraitObjectIntended | src/lib.rs:449-485 | the corrected envelope reader agrees with the reader as written wherever that one is defined, and differs only where that one is undefined, with a defined outcome |
| Intended.IntendedTruncatedEnvelope | src/lib.rs:441-465 | with the corrected reader, an envelope cut before element 0, 1 or 2 is `invalid_length` of that index for every concrete type |
| Intended.IntendedPayloadErrorIsCustom | src/lib.rs:480-485 | with the corrected reader, a payload the concrete type cannot decode is a recoverable custom error wrapping its own error, for every concrete type |
| Intended.IntendedRoundTrip | src/lib.rs:449-485 | the corrected reader reads back what `serialize` wrote, in a relocated invocation, as the relocated value |
| Scenarios.StringPayloadFailureIntendedScenario | src/lib.rs:480-485 | the corrected reader on the `String` envelope with an integer payload returns the custom error wrapping the invalid-type error |

## Findings

| source | as written | input that shows it | evidently intended | confidence | as-written member | corrected member |
|---|---|---|---|---|---|---|
| src/lib.rs:449-485 | the payload is decoded into a `ManuallyDrop` box made by `uninitialized_box`, which is moved into `DeserializeErased`; when the payload is missing or fails, that box (still uninitialised) is dropped with the concrete type's destructor | a genuine `dyn Any` envelope for a `String` whose third element is the integer 5 | the TODO at src/lib.rs:449: a `Box<MaybeUninit<T>>` slot, freed without the destructor, so the payload's error comes back as a recoverable custom error (and a missing element 2 as `invalid_length(2)`) for every concrete type | high, not executed | Scenarios.StringPayloadFailureScenario | Intended.IntendedPayloadErrorIsCustom |

Protocol.DecodeTraitObject models the code as written, and the rest of the
model (round trip, soundness, the convenience layer) is stated about it.
Intended.DecodeTraitObjectIntended is the corrected reader; its contract
says it agrees with the reader as written wherever that one is defined.

## Left out

- Element 0 is written and checked by the `relative` crate, which is not part
  of this model. Its layout is assumed: a `usize` offset, the 128-bit build
  id, then the trait object's 64-bit `type_id`. The build id is checked
  first, then the `type_id`.
- Relative.DecodeVtableRef: a reference that is well laid out apart from
  extra elements is rejected as trailing elements before the build id is
  compared. This follows self-describing formats; other formats may report
  the mismatch instead.
- The trailing-elements error after the third envelope element comes from the
  format (serde_json's tuple reader), not from the crate's visitor.
  Properties.ExtendedEnvelope states that format's behaviour.
- How `build_id` and `type_id` are computed, and their collisions. Both are
  parameters. A collision of trait `type_id`s would let a trait mismatch
  through; the model does not explore this.
- The unsafe pointer work (`transmute_copy`, `uninitialized_box`) is outside
  the model. Leaking the uninitialised slot on a panic or an element-1
  error is harmless and is not modelled. Dropping it is modelled, as
  undefined behaviour for concrete types with a destructor. A vtable address is used as a lookup
  in the process's vtable map. An address with no vtable for the requested
  trait is the `Undefined` outcome.
- Only 64-bit targets are modelled. `usize` and the relative offset wrap
  modulo 2^64. The crate's tests also build for wasm32, where they wrap
  modulo 2^32.
- Relocated: every vtable and the anchor move by one displacement. This
  assumes away the third documented soundness hole (src/lib.rs:93): dynamic
  linking where relative addresses differ between invocations.
- The concrete byte formats (JSON, bincode). The wire is serde's data model.
- Serializer-side errors: serialization is total in the model.
- Errors raised inside a concrete type's own serde implementation are not
  modelled. Payload errors are only those of the modelled sized types:
  integers, `String`, `Vec`, and the wrappers.
- The `panic!()` when a trait-object-shaped type is not a trait object
  (src/lib.rs:374). No type in the model reaches it.
- Whether a concrete type is `Send` is not checked. `send` only distinguishes
  the `type_id` of `dyn Trait + Send`.
- `Deref`, `Borrow`, `Debug`/`Display` forwarding, `Error` methods, the `Fn`
  call forwarding, and `Rc`/`Arc` reference counting on the wrappers. None of
  these touches the wire.
- `into_any_sync` and `into_any_send_sync`: the model has no `Sync` bound.
  They behave as `into_any`. (`into_any_send` is `IntoAny` with `send`
  true.)
- `From<E> for Box<dyn Error>` (src/convenience.rs:510-520) is a plain
  construction.
- The bodies of trait methods behind a vtable, such as the tests' `hi()` and
  the closures. A trait object's behaviour is identified with its vtable
  record and its data.
- The tests' re-launching of the binary as a subprocess. Another invocation is modelled as a
  relocated process.

=== FILE: convenience.dfy ===
/** The crate's owning wrappers `Box`, `Rc` and `Arc`, which hand their
    contents to the core protocol and add nothing to the wire; the serde
    implementations for the standard `Box<dyn Any>` and its kin, which go
    through the `Box` wrapper; and `into_any`, after which a downcast to the
    original concrete type succeeds. */
module Convenience {
  import opened Wire
  import opened Image
  import opened Relative
  import opened Protocol
  import opened Properties

  datatype Option<+T> = None | Some(value: T)

  // Construction

  /** `Box::new(t)`, `Rc::new(t)`, `Arc::new(t)`. */
  function New(k: WrapperKind, v: Value): Value {
    Wrapped(k, v)
  }

  /** `From<T>` for each wrapper: the standard pointer's `new`, wrapped. */
  function FromValue(k: WrapperKind, v: Value): Value {
    Wrapped(k, v)
  }

  /** `Box::into_box`: the standard box inside the wrapper. */
  function IntoBox(b: Value): Value
    requires b.Wrapped? && b.kind == Box
  {
    b.contents
  }

  /** `new` and `From<T>` build the same wrapper, whose type is the wrapper
      of the value's type, and `into_box` hands back what `new` was given. */
  lemma ConstructorsAgree(p: Process, k: WrapperKind, t: Ty, v: Value)
    ensures FromValue(k, v) == New(k, v)
    ensures HasType(p, TWrapper(k, t), New(k, v)) <==> HasType(p, t, v)
    ensures IntoBox(New(Box, v)) == v
  {
  }

  // Wrapper transparency

  /** A wrapper is written exactly as the core writes its contents. */
  lemma WrapperSerializeTransparent(p: Process, k: WrapperKind, t: Ty, v: Value)
    requires ValidProcess(p) && WellFormed(t) && HasType(p, t, v)
    ensures WellFormed(TWrapper(k, t)) && HasType(p, TWrapper(k, t), New(k, v))
    ensures Serialize(p, TWrapper(k, t), New(k, v)) == Serialize(p, t, v)
  {
  }

  /** A wrapper is read by the core `deserialize` of its contents, whose
      value is wrapped and whose every other outcome is passed on as is. */
  lemma WrapperDeserializeTransparent(p: Process, k: WrapperKind, t: Ty, w: Wire)
    requires ValidProcess(p) && WellFormed(t)
    ensures WellFormed(TWrapper(k, t))
    ensures Deserialize(p, TWrapper(k, t), w).Ok? <==> Deserialize(p, t, w).Ok?
    ensures Deserialize(p, t, w).Ok? ==>
              Deserialize(p, TWrapper(k, t), w) == Ok(New(k, Deserialize(p, t, w).value))
    ensures !Deserialize(p, t, w).Ok? ==> Deserialize(p, TWrapper(k, t), w) == Deserialize(p, t, w)
  {
  }

  /** Since no wrapper adds a layer, what one wrapper wrote the others read:
      a `Box` written is an `Rc` or an `Arc` read, with the same contents. */
  lemma WrappersShareWireFormat(p: Process, k1: WrapperKind, k2: WrapperKind, t: Ty, v: Value)
    requires ValidProcess(p) && WellFormed(t) && HasType(p, t, v)
    ensures WellFormed(TWrapper(k1, t)) && HasType(p, TWrapper(k1, t), New(k1, v))
    ensures Deserialize(p, TWrapper(k2, t), Serialize(p, TWrapper(k1, t), New(k1, v))) == Ok(New(k2, v))
  {
    WrapperSerializeTransparent(p, k1, t, v);
    WrapperDeserializeTransparent(p, k2, t, Serialize(p, t, v));
    SameProcessRoundTrip(p, t, v);
  }

  // Trait objects of the convenience traits

  /** `Any`, `Error`, `Display`, `Debug` and the three `Fn` traits, each of
      which the crate makes serializable as a trait object. */
  predicate IsConvenienceTrait(tr: Trait) {
    !tr.UserTrait?
  }

  /** `Deserialize` for a standard `Box<dyn Any>` (and `Error`, `Display`,
      `Debug`, the `Fn` traits, with or without `Send`): the crate's `Box`
      wrapper is decoded and unwrapped.  It reads exactly what the core reads
      for the trait object. */
  function DeserializeStdBox(p: Process, tr: Trait, send: bool, w: Wire): (r: Outcome<Value>)
    requires ValidProcess(p) && IsConvenienceTrait(tr)
    ensures r == Deserialize(p, TDyn(tr, send), w)
  {
    WrapperDeserializeTransparent(p, Box, TDyn(tr, send), w);
    var b :- Deserialize(p, TWrapper(Box, TDyn(tr, send)), w);
    Ok(b.contents)
  }

  /** `Serialize` for `dyn Any` (and `Error`, `Display`, `Debug`, the `Fn`
      traits, with or without `Send`): the core trait-object path, so it
      writes a 3-tuple envelope that the standard box decoder reads back. */
  function SerializeDyn(p: Process, tr: Trait, send: bool, v: Value): (r: Wire)
    requires ValidProcess(p) && IsConvenienceTrait(tr) && HasType(p, TDyn(tr, send), v)
    ensures r.WTuple? && |r.items| == 3
    ensures DeserializeStdBox(p, tr, send, r) == Ok(v)
  {
    EnvelopeLayout(p, TDyn(tr, send), v);
    SameProcessRoundTrip(p, TDyn(tr, send), v);
    Serialize(p, TDyn(tr, send), v)
  }

  // `into_any` and downcasting

  /** A standard `Box<dyn std::any::Any>`: the concrete value, known only
      through its concrete type's `type_id`. */
  datatype AnyBox = AnyBox(concrete: Ty, data: Value)

  /** `Box::<dyn Any>::into_any`, and with `send` `Box::<dyn Any +
      Send>::into_any_send`: the same concrete value, now seen through the
      standard `Any` trait. */
  function IntoAny(p: Process, send: bool, b: Value): (r: AnyBox)
    requires HasType(p, TWrapper(Box, TDyn(Any, send)), b)
    ensures b.contents.Object? && b.contents.vtable in p.vtables
    ensures r.data == b.contents.data && r.concrete == ConcreteOf(p, b.contents)
    ensures HasType(p, r.concrete, r.data)
  {
    assert HasType(p, TDyn(Any, send), b.contents);
    AnyBox(ConcreteOf(p, b.contents), b.contents.data)
  }

  /** `Box::<dyn Any>::downcast::<T>`: succeeds when `T`'s `type_id` is the
      concrete type's. */
  function Downcast(p: Process, x: AnyBox, t: Ty): Option<Value> {
    if p.bin.typeId(t) == p.bin.typeId(x.concrete) then Some(x.data) else None
  }

  /** After `into_any`, a downcast to the type the wrapper was made from
      succeeds and yields the value it was made from. */
  lemma DowncastToOriginal(p: Process, send: bool, t: Ty, v: Value, vtable: Addr)
    requires vtable in p.vtables && p.vtables[vtable] == Vtable(Any, t) && HasType(p, t, v)
    ensures HasType(p, TWrapper(Box, TDyn(Any, send)), New(Box, Object(vtable, v)))
    ensures Downcast(p, IntoAny(p, send, New(Box, Object(vtable, v))), t) == Some(v)
  {
  }

  /** A `Box<dyn Any>` sent to another invocation of the same binary still
      downcasts to its original concrete type, yielding the original value
      (with any vtables inside it relocated). */
  lemma DowncastAfterRoundTrip(a: Process, b: Process, d: int, send: bool, t: Ty, v: Value, vtable: Addr)
    requires ValidProcess(a) && Relocated(a, b, d)
    requires vtable in a.vtables && a.vtables[vtable] == Vtable(Any, t) && HasType(a, t, v)
    ensures ValidProcess(b) && HasType(a, TWrapper(Box, TDyn(Any, send)), New(Box, Object(vtable, v)))
    ensures var ty := TWrapper(Box, TDyn(Any, send));
      var r := Deserialize(b, ty, Serialize(a, ty, New(Box, Object(vtable, v))));
      && r.Ok?
      && HasType(b, ty, r.value)
      && Downcast(b, IntoAny(b, send, r.value), t) == Some(ShiftValue(v, d))
  {
    var ty := TWrapper(Box, TDyn(Any, send));
    var x := New(Box, Object(vtable, v));
    assert HasType(a, TDyn(Any, send), x.contents);
    RoundTrip(a, b, d, ty, x);
    RelocationPreservesTyping(a, b, d, ty, x);
    RelocationPreservesTyping(a, b, d, TDyn(Any, send), x.contents);
  }
}

=== FILE: image.dfy ===
/** The static types the crate distinguishes, the runtime values behind them
    (a trait object is a fat pointer: a vtable address plus the concrete
    value), and the image of one running process: where its vtables live,
    which of them is the anchor, and the binary's build id and type ids. */
module Image {
  import opened Wire

  /** A machine address on a 64-bit target. */
  type Addr = n: nat | n < U64_LIMIT
  /** A 64-bit `type_id`. */
  type TypeId = n: nat | n < U64_LIMIT
  /** A 128-bit build id. */
  type BuildId = n: nat | n < U128_LIMIT

  /** The three owning wrappers of the crate: `Box`, `Rc` and `Arc`. */
  datatype WrapperKind = Box | Rc | Arc

  /** The traits a trait object can be formed from: the crate's convenience
      traits and any user trait with the crate's two traits as supertraits. */
  datatype Trait = Any | Error | Display | Debug | FnOnce | FnMut | Fn | UserTrait(name: string)

  /** The static types the protocol is specialised on.  The first four are
      sized; `TStr` and `TSlice` are `str` and `[T]`; `TDyn` is `dyn Trait`,
      with `send` telling `dyn Trait + Send` apart (a different type, so a
      different `type_id`, with the same vtables). */
  datatype Ty =
    | TUint(width: Width)
    | TString
    | TVec(elem: Ty)
    | TWrapper(kind: WrapperKind, inner: Ty)
    | TStr
    | TSlice(elem: Ty)
    | TDyn(bound: Trait, send: bool)

  /** The three encodings the crate picks between by specialisation; the
      string and slice cases share the native serde encoding. */
  datatype Shape = Sized | NativeStr | NativeSlice | TraitObject

  function ShapeOf(t: Ty): Shape {
    match t
    case TStr => NativeStr
    case TSlice(_) => NativeSlice
    case TDyn(_, _) => TraitObject
    case _ => Sized
  }

  predicate IsSized(t: Ty) {
    ShapeOf(t) == Sized
  }

  /** Whether dropping a value of type `t` runs code that reads it: a
      `String`, a `Vec` and the wrappers free what they own, an integer
      needs no destructor. */
  predicate HasDropGlue(t: Ty) {
    !t.TUint?
  }

  /** The types Rust accepts: vector and slice elements are sized. */
  predicate WellFormed(t: Ty) {
    match t
    case TVec(e) => IsSized(e) && WellFormed(e)
    case TSlice(e) => IsSized(e) && WellFormed(e)
    case TWrapper(_, inner) => WellFormed(inner)
    case _ => true
  }

  /** Runtime values.  `Object` is the fat pointer behind a trait object:
      the vtable's address and the concrete value it points to. */
  datatype Value =
    | Num(n: nat)
    | Text(s: string)
    | Items(items: seq<Value>)
    | Wrapped(kind: WrapperKind, contents: Value)
    | Object(vtable: Addr, data: Value)

  /** A vtable: the methods of trait `bound` for one sized concrete type.  Its size
      and alignment, its codec entry points and its `type_id` method are all
      determined by `concrete`. */
  datatype Vtable = Vtable(bound: Trait, concrete: Ty)

  /** What all invocations of one compiled binary share: the build id and the
      `type_id` intrinsic, which is given here rather than computed. */
  datatype Binary = Binary(buildId: BuildId, typeId: Ty -> TypeId)

  /** One invocation of a binary: where its vtables were loaded and which of
      them is the static anchor vtable offsets are taken from. */
  datatype Process = Process(bin: Binary, anchor: Addr, vtables: map<Addr, Vtable>)

  /** Every vtable describes a well-formed sized concrete type. */
  predicate ValidProcess(p: Process) {
    forall a | a in p.vtables :: IsSized(p.vtables[a].concrete) && WellFormed(p.vtables[a].concrete)
  }

  /** `v` is a value of static type `t` in process `p`; for a trait object,
      its vtable is one of `p`'s, for the right trait, and the data is a value
      of that vtable's concrete type. */
  predicate HasType(p: Process, t: Ty, v: Value)
    decreases v
  {
    match t
    case TUint(w) => v.Num? && v.n < Limit(w)
    case TString => v.Text?
    case TStr => v.Text?
    case TVec(e) => v.Items? && forall i | 0 <= i < |v.items| :: HasType(p, e, v.items[i])
    case TSlice(e) => v.Items? && forall i | 0 <= i < |v.items| :: HasType(p, e, v.items[i])
    case TWrapper(k, inner) => v.Wrapped? && v.kind == k && HasType(p, inner, v.contents)
    case TDyn(tr, _) =>
      && v.Object?
      && v.vtable in p.vtables
      && p.vtables[v.vtable].bound == tr
      && HasType(p, p.vtables[v.vtable].concrete, v.data)
  }

  /** The concrete type behind a trait object, reached through its vtable. */
  function ConcreteOf(p: Process, v: Value): Ty
    requires v.Object? && v.vtable in p.vtables
  {
    p.vtables[v.vtable].concrete
  }
}

=== FILE: intended.dfy ===
/** The envelope reader as its own TODO intends it.  The slot the payload is
    decoded into is a `Box<MaybeUninit<T>>`, so a payload that is missing or
    fails frees the slot without running the concrete type's destructor,
    and the error is returned whatever the concrete type.  Everywhere else
    it reads exactly as the reader as written. */
module Intended {
  import opened Wire
  import opened Image
  import opened Relative
  import opened Protocol
  import opened Properties

  /** The corrected reader.  It differs from `DecodeTraitObject` only where
      that one ends in undefined behaviour for dropping the uninitialised
      slot, and there it returns a recoverable error or the panic. */
  function DecodeTraitObjectIntended(p: Process, t: Ty, w: Wire): (r: Outcome<Value>)
    requires ValidProcess(p) && t.TDyn?
    ensures DecodeTraitObject(p, t, w) != Undefined ==> r == DecodeTraitObject(p, t, w)
    ensures r != DecodeTraitObject(p, t, w) ==> DecodeTraitObject(p, t, w) == Undefined && r != Undefined
  {
    if !w.WTuple? then Err(InvalidType)
    else if |w.items| < 1 then Err(InvalidLength(0))
    else
      var vtable :- DecodeVtableRef(p, t, w.items[0]);
      if vtable !in p.vtables || p.vtables[vtable].bound != t.bound then Undefined
      else
        var concrete := p.vtables[vtable].concrete;
        if |w.items| < 2 then Err(InvalidLength(1))
        else
          var id :- ReadUint(w.items[1], Bits64);
          if id != p.bin.typeId(concrete) then Abort
          else if |w.items| < 3 then Err(InvalidLength(2))
          else
            match PlainDecode(p, concrete, w.items[2])
            case Ok(data) => if |w.items| > 3 then Err(TrailingElements) else Ok(Object(vtable, data))
            case Undefined => Undefined
            case Err(e) => Err(Custom(e))
            case Abort => Abort
  }

  /** With the corrected reader, an envelope cut short before element `i`
      is `invalid_length(i)` for every concrete type. */
  lemma IntendedTruncatedEnvelope(p: Process, t: Ty, v: Value, i: nat)
    requires ValidProcess(p) && WellFormed(t) && HasType(p, t, v) && t.TDyn? && i < 3
    ensures DecodeTraitObjectIntended(p, t, WTuple(Serialize(p, t, v).items[..i])) == Err(InvalidLength(i))
  {
    EnvelopeLayout(p, t, v);
  }

  /** With the corrected reader, a payload the concrete type cannot decode
      is a recoverable custom error wrapping the payload's own error, for
      every concrete type. */
  lemma IntendedPayloadErrorIsCustom(p: Process, t: Ty, v: Value, payload: Wire)
    requires ValidProcess(p) && WellFormed(t) && HasType(p, t, v) && t.TDyn?
    requires PlainDecode(p, ConcreteOf(p, v), payload).Err?
    ensures var w := Serialize(p, t, v);
      DecodeTraitObjectIntended(p, t, WTuple([w.items[0], w.items[1], payload]))
        == Err(Custom(PlainDecode(p, ConcreteOf(p, v), payload).error))
  {
    EnvelopeLayout(p, t, v);
  }

  /** The correction costs nothing on genuine data: the corrected reader
      reads back what `serialize` wrote, in a relocated invocation of the
      same binary, exactly as the reader as written does. */
  lemma IntendedRoundTrip(a: Process, b: Process, d: int, t: Ty, v: Value)
    requires ValidProcess(a) && Relocated(a, b, d) && WellFormed(t) && HasType(a, t, v) && t.TDyn?
    ensures ValidProcess(b)
    ensures DecodeTraitObjectIntended(b, t, Serialize(a, t, v)) == Ok(ShiftValue(v, d))
  {
    RoundTrip(a, b, d, t, v);
  }
}

=== FILE: properties.dfy ===
/** What the protocol promises: no envelope for sized values, `str` and
    `[T]`; a fixed 3-tuple for trait objects; the decode of an encoding gives
    the value back, in the same process or in another invocation of the same
    binary loaded elsewhere; and each malformed or foreign input ends in the
    outcome the crate chose for it, a recoverable error, a panic, or (for a
    corrupted offset that passes the checks) undefined behaviour. */
module Properties {
  import opened Wire
  import opened Image
  import opened Relative
  import opened Protocol

  // Relocation of values

  /** A value as it exists in an image loaded `d` bytes further on: every
      vtable address inside it moved by `d`, everything else the same. */
  function ShiftValue(v: Value, d: int): Value
    decreases v, 1
  {
    match v
    case Object(vtable, data) => Object(Shift(vtable, d), ShiftValue(data, d))
    case Items(xs) => Items(ShiftItems(xs, d))
    case Wrapped(k, c) => Wrapped(k, ShiftValue(c, d))
    case _ => v
  }

  function ShiftItems(xs: seq<Value>, d: int): (r: seq<Value>)
    ensures |r| == |xs|
    decreases xs, 0
  {
    if xs == [] then [] else [ShiftValue(xs[0], d)] + ShiftItems(xs[1..], d)
  }

  lemma {:induction false} ShiftItemsIndex(xs: seq<Value>, d: int, i: nat)
    requires i < |xs|
    ensures ShiftItems(xs, d)[i] == ShiftValue(xs[i], d)
    decreases xs
  {
    if i > 0 {
      ShiftItemsIndex(xs[1..], d, i - 1);
    }
  }

  /** Loading at the same place changes nothing. */
  lemma {:induction false} ShiftByZero(v: Value)
    ensures ShiftValue(v, 0) == v
    decreases v, 1
  {
    match v
    case Object(vtable, data) => ShiftByZero(data);
    case Items(xs) => ShiftItemsByZero(xs);
    case Wrapped(k, c) => ShiftByZero(c);
    case _ =>
  }

  lemma {:induction false} ShiftItemsByZero(xs: seq<Value>)
    ensures ShiftItems(xs, 0) == xs
    decreases xs, 0
  {
    if xs != [] {
      ShiftByZero(xs[0]);
      ShiftItemsByZero(xs[1..]);
      assert xs == [xs[0]] + xs[1..];
    }
  }

  /** A relocated value is a value of the same type in the relocated
      process, and each trait object in it points at a vtable for the same
      trait and concrete type, so its methods behave as before. */
  lemma {:induction false} RelocationPreservesTyping(a: Process, b: Process, d: int, t: Ty, v: Value)
    requires Relocated(a, b, d) && HasType(a, t, v)
    ensures HasType(b, t, ShiftValue(v, d))
    ensures v.Object? ==> b.vtables[Shift(v.vtable, d)] == a.vtables[v.vtable]
    decreases v
  {
    match t
    case TVec(e) => ItemsRelocationPreservesTyping(a, b, d, e, v.items);
    case TSlice(e) => ItemsRelocationPreservesTyping(a, b, d, e, v.items);
    case TWrapper(_, inner) => RelocationPreservesTyping(a, b, d, inner, v.contents);
    case TDyn(_, _) => RelocationPreservesTyping(a, b, d, ConcreteOf(a, v), v.data);
    case _ =>
  }

  lemma {:induction false} ItemsRelocationPreservesTyping(a: Process, b: Process, d: int, e: Ty, xs: seq<Value>)
    requires Relocated(a, b, d)
    requires forall i | 0 <= i < |xs| :: HasType(a, e, xs[i])
    ensures |ShiftItems(xs, d)| == |xs|
    ensures forall i | 0 <= i < |xs| :: HasType(b, e, ShiftItems(xs, d)[i])
    decreases xs
  {
    forall i | 0 <= i < |xs|
      ensures |ShiftItems(xs, d)| == |xs| && HasType(b, e, ShiftItems(xs, d)[i])
    {
      ShiftItemsIndex(xs, d, i);
      RelocationPreservesTyping(a, b, d, e, xs[i]);
    }
  }

  // Round trip

  /** Decoding, in another invocation of the same binary loaded `d` bytes
      further on, what `serialize` wrote gives the value back, with its
      vtable addresses moved by `d`.  With `d == 0` this is the round trip
      inside one process. */
  lemma {:induction false} RoundTrip(a: Process, b: Process, d: int, t: Ty, v: Value)
    requires ValidProcess(a) && Relocated(a, b, d) && WellFormed(t) && HasType(a, t, v)
    ensures ValidProcess(b)
    ensures Deserialize(b, t, Serialize(a, t, v)) == Ok(ShiftValue(v, d))
    decreases v, 2
  {
    RelocatedValid(a, b, d);
    match ShapeOf(t)
    case Sized => PlainRoundTrip(a, b, d, t, v);
    case NativeStr =>
    case NativeSlice => ItemsRoundTrip(a, b, d, t.elem, v.items);
    case TraitObject =>
      var concrete := ConcreteOf(a, v);
      VtableRefRoundTrip(a, b, d, t, v.vtable);
      assert b.vtables[Shift(v.vtable, d)] == a.vtables[v.vtable];
      PlainRoundTrip(a, b, d, concrete, v.data);
  }

  lemma {:induction false} PlainRoundTrip(a: Process, b: Process, d: int, t: Ty, v: Value)
    requires ValidProcess(a) && Relocated(a, b, d) && IsSized(t) && WellFormed(t) && HasType(a, t, v)
    ensures ValidProcess(b)
    ensures PlainDecode(b, t, Plain(a, t, v)) == Ok(ShiftValue(v, d))
    decreases v, 1
  {
    RelocatedValid(a, b, d);
    match t
    case TUint(_) =>
    case TString =>
    case TVec(e) => ItemsRoundTrip(a, b, d, e, v.items);
    case TWrapper(_, inner) => RoundTrip(a, b, d, inner, v.contents);
  }

  lemma {:induction false} ItemsRoundTrip(a: Process, b: Process, d: int, e: Ty, vs: seq<Value>)
    requires ValidProcess(a) && Relocated(a, b, d) && IsSized(e) && WellFormed(e)
    requires forall i | 0 <= i < |vs| :: HasType(a, e, vs[i])
    ensures ValidProcess(b)
    ensures DecodeItems(b, e, PlainItems(a, e, vs)) == Ok(ShiftItems(vs, d))
    decreases vs, 0
  {
    RelocatedValid(a, b, d);
    if vs != [] {
      PlainRoundTrip(a, b, d, e, vs[0]);
      ItemsRoundTrip(a, b, d, e, vs[1..]);
      var ws := PlainItems(a, e, vs);
      assert ws[0] == Plain(a, e, vs[0]);
      assert ws[1..] == PlainItems(a, e, vs[1..]);
    }
  }

  /** The round trip inside one process gives back the very same value. */
  lemma SameProcessRoundTrip(p: Process, t: Ty, v: Value)
    requires ValidProcess(p) && WellFormed(t) && HasType(p, t, v)
    ensures Deserialize(p, t, Serialize(p, t, v)) == Ok(v)
  {
    RelocatedByZero(p);
    RoundTrip(p, p, 0, t, v);
    ShiftByZero(v);
  }

  // Shapes

  /** The sized type whose serde encoding a static type shares when no
      envelope is used: `String` for `str`, `Vec<T>` for `[T]`. */
  function Owned(t: Ty): Ty {
    match t
    case TStr => TString
    case TSlice(e) => TVec(e)
    case _ => t
  }

  /** Sized values, `str` and `[T]` are written with no envelope: exactly
      what serde writes for the sized value, the `String` or the `Vec<T>`. */
  lemma NoEnvelope(p: Process, t: Ty, v: Value)
    requires ValidProcess(p) && WellFormed(t) && HasType(p, t, v) && ShapeOf(t) != TraitObject
    ensures IsSized(Owned(t)) && WellFormed(Owned(t)) && HasType(p, Owned(t), v)
    ensures Serialize(p, t, v) == Plain(p, Owned(t), v)
  {
  }

  /** Decoding a sized value, a `str` or a `[T]` is serde's decoding of the
      sized value, the `String` or the `Vec<T>`, whatever the input. */
  lemma NoEnvelopeDecode(p: Process, t: Ty, w: Wire)
    requires ValidProcess(p) && WellFormed(t) && ShapeOf(t) != TraitObject
    ensures IsSized(Owned(t)) && WellFormed(Owned(t))
    ensures Deserialize(p, t, w) == PlainDecode(p, Owned(t), w)
  {
  }

  /** A trait object is written as a tuple of exactly three elements, in the
      order: its vtable reference (which reads back as its own vtable), the
      `type_id` of its concrete type, and the concrete value's own
      encoding. */
  lemma EnvelopeLayout(p: Process, t: Ty, v: Value)
    requires ValidProcess(p) && WellFormed(t) && HasType(p, t, v) && t.TDyn?
    ensures var w := Serialize(p, t, v);
      && w.WTuple? && |w.items| == 3
      && DecodeVtableRef(p, t, w.items[0]) == Ok(v.vtable)
      && w.items[1] == WInt(p.bin.typeId(ConcreteOf(p, v)))
      && w.items[2] == Plain(p, ConcreteOf(p, v), v.data)
  {
    RelocatedByZero(p);
    VtableRefRoundTrip(p, p, 0, t, v.vtable);
  }

  // Errors and where they arise

  /** The envelope reader asks for a tuple: anything else is an invalid
      type. */
  lemma EnvelopeNeedsTuple(p: Process, t: Ty, w: Wire)
    requires ValidProcess(p) && t.TDyn? && !w.WTuple?
    ensures Deserialize(p, t, w) == Err(InvalidType)
  {
  }

  /** An envelope cut short before element `i` is reported as
      `invalid_length(i)`, except that one cut before the payload drops the
      uninitialised slot first, which is undefined behaviour when the
      concrete type has a destructor. */
  lemma TruncatedEnvelope(p: Process, t: Ty, v: Value, i: nat)
    requires ValidProcess(p) && WellFormed(t) && HasType(p, t, v) && t.TDyn? && i < 3
    ensures i < 2 || !HasDropGlue(ConcreteOf(p, v)) ==>
              Deserialize(p, t, WTuple(Serialize(p, t, v).items[..i])) == Err(InvalidLength(i))
    ensures i == 2 && HasDropGlue(ConcreteOf(p, v)) ==>
              Deserialize(p, t, WTuple(Serialize(p, t, v).items[..i])) == Undefined
  {
    EnvelopeLayout(p, t, v);
  }

  /** An envelope with an element after the payload is rejected by the
      format once the reader has consumed its three. */
  lemma ExtendedEnvelope(p: Process, t: Ty, v: Value, extra: Wire)
    requires ValidProcess(p) && WellFormed(t) && HasType(p, t, v) && t.TDyn?
    ensures Deserialize(p, t, WTuple(Serialize(p, t, v).items + [extra])) == Err(TrailingElements)
  {
    EnvelopeLayout(p, t, v);
    var w := Serialize(p, t, v);
    var w' := WTuple(w.items + [extra]);
    assert w'.items[2] == w.items[2];
    PlainRoundTrip(p, p, 0, ConcreteOf(p, v), v.data) by { RelocatedByZero(p); }
  }

  /** An element 1 other than the `type_id` of the concrete type the vtable
      leads to is a panic, not an error, and it happens before the payload is
      read: whatever follows element 1, even nothing, the outcome is the
      same. */
  lemma ConcreteIdMismatchAborts(p: Process, t: Ty, v: Value, id: TypeId, rest: seq<Wire>)
    requires ValidProcess(p) && WellFormed(t) && HasType(p, t, v) && t.TDyn?
    requires id != p.bin.typeId(ConcreteOf(p, v))
    ensures Deserialize(p, t, WTuple([Serialize(p, t, v).items[0], WInt(id)] + rest)) == Abort
  {
    EnvelopeLayout(p, t, v);
  }

  /** A payload the concrete type cannot decode surfaces as a recoverable
      custom error wrapping the payload's own error when the concrete type
      has no destructor; otherwise the uninitialised slot is dropped on the
      way out, which is undefined behaviour. */
  lemma PayloadErrorIsCustom(p: Process, t: Ty, v: Value, payload: Wire)
    requires ValidProcess(p) && WellFormed(t) && HasType(p, t, v) && t.TDyn?
    requires PlainDecode(p, ConcreteOf(p, v), payload).Err?
    ensures var w := Serialize(p, t, v);
      !HasDropGlue(ConcreteOf(p, v)) ==>
        Deserialize(p, t, WTuple([w.items[0], w.items[1], payload]))
          == Err(Custom(PlainDecode(p, ConcreteOf(p, v), payload).error))
    ensures var w := Serialize(p, t, v);
      HasDropGlue(ConcreteOf(p, v)) ==> Deserialize(p, t, WTuple([w.items[0], w.items[1], payload])) == Undefined
  {
    EnvelopeLayout(p, t, v);
  }

  /** A trait object written by another binary is rejected with a
      recoverable error, whatever trait object type it is read as. */
  lemma ForeignBuildRejectedEnvelope(a: Process, c: Process, t: Ty, u: Ty, v: Value)
    requires ValidProcess(a) && WellFormed(t) && HasType(a, t, v) && t.TDyn?
    requires ValidProcess(c) && u.TDyn?
    requires c.bin.buildId != a.bin.buildId
    ensures Deserialize(c, u, Serialize(a, t, v)) == Err(BuildIdMismatch)
  {
    ForeignBuildRejected(a, c, t, u, v.vtable);
  }

  /** A trait object written as one trait object type and read as another
      (say written as `dyn Debug` and read as `dyn Any`) is rejected with a
      recoverable error, in any invocation of the same binary. */
  lemma OtherTraitObjectRejectedEnvelope(a: Process, b: Process, d: int, t: Ty, u: Ty, v: Value)
    requires ValidProcess(a) && Relocated(a, b, d) && WellFormed(t) && HasType(a, t, v) && t.TDyn? && u.TDyn?
    requires a.bin.typeId(t) != a.bin.typeId(u)
    ensures ValidProcess(b)
    ensures Deserialize(b, u, Serialize(a, t, v)) == Err(TraitMismatch)
  {
    RelocatedValid(a, b, d);
    OtherTraitObjectRejected(a, b, t, u, v.vtable);
  }

  /** The documented soundness gap: an offset corrupted to point where no
      vtable for the trait lies (at no vtable at all, or at another trait's),
      sent with a genuine build id and trait object `type_id`, passes both
      checks and is used as this trait's vtable, which is undefined
      behaviour. */
  lemma CorruptedOffsetIsUndefined(p: Process, t: Ty, v: Value, off: Addr)
    requires ValidProcess(p) && WellFormed(t) && HasType(p, t, v) && t.TDyn?
    requires var at := Resolve(p.anchor, off); at !in p.vtables || p.vtables[at].bound != t.bound
    ensures var w := Serialize(p, t, v);
      var forged := WTuple([WInt(off), WInt(p.bin.buildId), WInt(p.bin.typeId(t))]);
      Deserialize(p, t, WTuple([forged, w.items[1], w.items[2]])) == Undefined
  {
  }

  // Soundness of decoding

  /** Whatever the input, a value `deserialize` returns is a value of the
      requested type: checked input yields an error rather than an ill-typed
      value, and the unchecked offset that could yield one is undefined
      behaviour instead. */
  lemma {:induction false} DecodeSound(p: Process, t: Ty, w: Wire)
    requires ValidProcess(p) && WellFormed(t)
    ensures Deserialize(p, t, w).Ok? ==> HasType(p, t, Deserialize(p, t, w).value)
    decreases w, t, 3
  {
    match ShapeOf(t)
    case Sized => PlainDecodeSound(p, t, w);
    case NativeStr =>
    case NativeSlice => if w.WSeq? { ItemsDecodeSound(p, t.elem, w.items); }
    case TraitObject => TraitObjectDecodeSound(p, t, w);
  }

  lemma {:induction false} PlainDecodeSound(p: Process, t: Ty, w: Wire)
    requires ValidProcess(p) && IsSized(t) && WellFormed(t)
    ensures PlainDecode(p, t, w).Ok? ==> HasType(p, t, PlainDecode(p, t, w).value)
    decreases w, t, 1
  {
    match t
    case TUint(_) =>
    case TString =>
    case TVec(e) => if w.WSeq? { ItemsDecodeSound(p, e, w.items); }
    case TWrapper(_, inner) => DecodeSound(p, inner, w);
  }

  lemma {:induction false} ItemsDecodeSound(p: Process, e: Ty, ws: seq<Wire>)
    requires ValidProcess(p) && IsSized(e) && WellFormed(e)
    ensures var r := DecodeItems(p, e, ws);
      r.Ok? ==> |r.value| == |ws| && forall i | 0 <= i < |r.value| :: HasType(p, e, r.value[i])
    decreases ws, e, 0
  {
    if ws != [] {
      PlainDecodeSound(p, e, ws[0]);
      ItemsDecodeSound(p, e, ws[1..]);
    }
  }

  lemma {:induction false} TraitObjectDecodeSound(p: Process, t: Ty, w: Wire)
    requires ValidProcess(p) && t.TDyn?
    ensures DecodeTraitObject(p, t, w).Ok? ==> HasType(p, t, DecodeTraitObject(p, t, w).value)
    decreases w, t, 2
  {
    if w.WTuple? && |w.items| >= 3 {
      var r := DecodeVtableRef(p, t, w.items[0]);
      if r.Ok? && r.value in p.vtables {
        PlainDecodeSound(p, p.vtables[r.value].concrete, w.items[2]);
      }
    }
  }
}

=== FILE: protocol.dfy ===
/** The wire protocol of the crate's `serialize` and `deserialize`: the
    static type picks one of three encodings.  Sized values go through their
    own serde implementation, `str` and `[T]` through serde's native string
    and sequence encodings, and trait objects through a 3-tuple envelope
    (relative vtable, concrete `type_id`, erased payload). */
module Protocol {
  import opened Wire
  import opened Image
  import opened Relative

  // Encoding

  /** A sized value's own serde encoding.  The wrappers' serde
      implementations hand their contents to `Serialize`. */
  function Plain(p: Process, t: Ty, v: Value): Wire
    requires ValidProcess(p) && IsSized(t) && WellFormed(t) && HasType(p, t, v)
    decreases v, 1
  {
    match t
    case TUint(_) => WInt(v.n)
    case TString => WStr(v.s)
    case TVec(e) => WSeq(PlainItems(p, e, v.items))
    case TWrapper(_, inner) => Serialize(p, inner, v.contents)
  }

  /** The elements of a sequence, each in its own serde encoding. */
  function PlainItems(p: Process, e: Ty, vs: seq<Value>): seq<Wire>
    requires ValidProcess(p) && IsSized(e) && WellFormed(e)
    requires forall i | 0 <= i < |vs| :: HasType(p, e, vs[i])
    decreases vs, 0
  {
    if vs == [] then [] else [Plain(p, e, vs[0])] + PlainItems(p, e, vs[1..])
  }

  /** The crate's `serialize` for a value of static type `t`. */
  function Serialize(p: Process, t: Ty, v: Value): Wire
    requires ValidProcess(p) && WellFormed(t) && HasType(p, t, v)
    decreases v, 2
  {
    match ShapeOf(t)
    case Sized => Plain(p, t, v)
    case NativeStr => WStr(v.s)
    case NativeSlice => WSeq(PlainItems(p, t.elem, v.items))
    case TraitObject =>
      var concrete := ConcreteOf(p, v);
      WTuple([EncodeVtableRef(p, t, v.vtable), WInt(p.bin.typeId(concrete)), Plain(p, concrete, v.data)])
  }

  // Decoding

  /** A sized value's own serde decoding.  The wrappers' serde
      implementations decode their contents with `Deserialize` and wrap the
      result. */
  function PlainDecode(p: Process, t: Ty, w: Wire): Outcome<Value>
    requires ValidProcess(p) && IsSized(t) && WellFormed(t)
    decreases w, t, 1
  {
    match t
    case TUint(width) =>
      var n :- ReadUint(w, width);
      Ok(Num(n))
    case TString => if w.WStr? then Ok(Text(w.s)) else Err(InvalidType)
    case TVec(e) =>
      if w.WSeq? then
        var xs :- DecodeItems(p, e, w.items);
        Ok(Items(xs))
      else Err(InvalidType)
    case TWrapper(k, inner) =>
      var x :- Deserialize(p, inner, w);
      Ok(Wrapped(k, x))
  }

  /** The elements of a sequence in order; the first failure ends it. */
  function DecodeItems(p: Process, e: Ty, ws: seq<Wire>): Outcome<seq<Value>>
    requires ValidProcess(p) && IsSized(e) && WellFormed(e)
    decreases ws, e, 0
  {
    if ws == [] then Ok([])
    else
      var x :- PlainDecode(p, e, ws[0]);
      var rest :- DecodeItems(p, e, ws[1..]);
      Ok([x] + rest)
  }

  /** The envelope reader for trait object type `t`.  The tuple is read in a
      fixed order: the vtable reference (checked, then used unchecked to lay
      out an uninitialised slot for the concrete value; an address that
      holds no vtable for this trait makes every later use of it undefined
      behaviour), the concrete `type_id`, compared with the one the vtable
      reports (a panic if they differ, the slot leaked), and finally the
      payload, decoded by the concrete type's own deserializer into the slot.
      If element 2 is missing or its decoding fails, the slot is dropped
      still uninitialised: for a concrete type with a destructor that is
      undefined behaviour, otherwise the error is returned (the payload's
      own errors re-raised as custom errors).  A tuple longer than three is
      rejected by the format once the reader is done with it. */
  function DecodeTraitObject(p: Process, t: Ty, w: Wire): Outcome<Value>
    requires ValidProcess(p) && t.TDyn?
    decreases w, t, 2
  {
    if !w.WTuple? then Err(InvalidType)
    else if |w.items| < 1 then Err(InvalidLength(0))
    else
      var vtable :- DecodeVtableRef(p, t, w.items[0]);
      if vtable !in p.vtables || p.vtables[vtable].bound != t.bound then Undefined
      else
        var concrete := p.vtables[vtable].concrete;
        if |w.items| < 2 then Err(InvalidLength(1))
        else
          var id :- ReadUint(w.items[1], Bits64);
          if id != p.bin.typeId(concrete) then Abort
          else if |w.items| < 3 then
            if HasDropGlue(concrete) then Undefined else Err(InvalidLength(2))
          else
            match PlainDecode(p, concrete, w.items[2])
            case Ok(data) => if |w.items| > 3 then Err(TrailingElements) else Ok(Object(vtable, data))
            case Undefined => Undefined
            case Err(e) => if HasDropGlue(concrete) then Undefined else Err(Custom(e))
            case Abort => if HasDropGlue(concrete) then Undefined else Abort
  }

  /** The crate's `deserialize` for static type `t`. */
  function Deserialize(p: Process, t: Ty, w: Wire): Outcome<Value>
    requires ValidProcess(p) && WellFormed(t)
    decreases w, t, 3
  {
    match ShapeOf(t)
    case Sized => PlainDecode(p, t, w)
    case NativeStr => if w.WStr? then Ok(Text(w.s)) else Err(InvalidType)
    case NativeSlice =>
      if w.WSeq? then
        var xs :- DecodeItems(p, t.elem, w.items);
        Ok(Items(xs))
      else Err(InvalidType)
    case TraitObject => DecodeTraitObject(p, t, w)
  }
}

=== FILE: relative.dfy ===
/** The relative vtable reference that travels as element 0 of a trait
    object's envelope: the vtable's address as a `usize` offset from a static
    anchor vtable, sent together with the build id and the `type_id` of the
    trait object type, which are checked before the address is used. */
module Relative {
  import opened Wire
  import opened Image

  /** Reduction to a `usize`: wrap-around modulo 2^64. */
  function Wrap(x: int): (r: Addr)
    ensures 0 <= x < U64_LIMIT ==> r == x
    ensures (x - r) % U64_LIMIT == 0
  {
    x % U64_LIMIT
  }

  /** Where address `x` lies once the whole image is loaded `d` bytes further
      on (a negative `d` loads it lower). */
  function Shift(x: Addr, d: int): Addr {
    Wrap(x + d)
  }

  /** Where the image's address `y` lay before it was moved `d` bytes on. */
  function Unshift(y: Addr, d: int): Addr {
    Wrap(y - d)
  }

  /** The address an offset denotes in a process whose anchor vtable lies at
      `anchor`: `anchor + off`, wrapping. */
  function Resolve(anchor: Addr, off: Addr): Addr {
    Wrap(anchor + off)
  }

  /** The offset of `target` from `anchor`, wrapping: `target - anchor`.
      Resolving it against the same anchor gives `target` back. */
  function Offset(anchor: Addr, target: Addr): (off: Addr)
    ensures Resolve(anchor, off) == target
  {
    WrapOfSum(anchor, target - anchor);
    Wrap(target - anchor)
  }

  /** Wrapping a summand first does not change a wrapped sum. */
  lemma WrapOfSum(x: int, y: int)
    ensures Wrap(x + Wrap(y)) == Wrap(x + y)
  {
  }

  /** Adding a multiple of 2^64 does not change the wrapped value. */
  lemma WrapMultiple(x: int, k: int)
    ensures Wrap(x + k * U64_LIMIT) == Wrap(x)
  {
  }

  /** An offset does not depend on where the image was loaded: anchor and
      target move together. */
  lemma OffsetInvariant(anchor: Addr, target: Addr, d: int)
    ensures Offset(Shift(anchor, d), Shift(target, d)) == Offset(anchor, target)
  {
    var qa := (anchor + d) / U64_LIMIT;
    var qt := (target + d) / U64_LIMIT;
    assert Shift(anchor, d) == anchor + d - qa * U64_LIMIT;
    assert Shift(target, d) == target + d - qt * U64_LIMIT;
    WrapMultiple(target - anchor, qa - qt);
  }

  /** An offset taken in one process and resolved in a copy of it loaded `d`
      bytes further on denotes the target's new address. */
  lemma RelocatedResolve(anchor: Addr, target: Addr, d: int)
    ensures Resolve(Shift(anchor, d), Offset(anchor, target)) == Shift(target, d)
  {
    OffsetInvariant(anchor, target, d);
  }

  /** `b` is another invocation of `a`'s binary, loaded `d` bytes further on:
      the same build id and type ids, and every vtable, the anchor included,
      moved by the same displacement. */
  ghost predicate Relocated(a: Process, b: Process, d: int) {
    && b.bin == a.bin
    && b.anchor == Shift(a.anchor, d)
    && (forall x: Addr {:trigger Shift(x, d)} | x in a.vtables ::
          Shift(x, d) in b.vtables && b.vtables[Shift(x, d)] == a.vtables[x])
    && (forall y: Addr {:trigger Unshift(y, d)} | y in b.vtables ::
          Unshift(y, d) in a.vtables && a.vtables[Unshift(y, d)] == b.vtables[y])
  }

  /** A process is a relocation of itself by no displacement. */
  lemma RelocatedByZero(p: Process)
    ensures Relocated(p, p, 0)
  {
    forall x: Addr
      ensures Shift(x, 0) == x && Unshift(x, 0) == x
    {
    }
  }

  /** A relocated image describes the same concrete types. */
  lemma RelocatedValid(a: Process, b: Process, d: int)
    requires ValidProcess(a) && Relocated(a, b, d)
    ensures ValidProcess(b)
  {
    forall y | y in b.vtables
      ensures IsSized(b.vtables[y].concrete) && WellFormed(b.vtables[y].concrete)
    {
      assert Unshift(y, d) in a.vtables;
    }
  }

  /** Element 0 of an envelope as the reference is written for trait object
      type `t`: offset, build id, `type_id` of `t`. */
  function EncodeVtableRef(p: Process, t: Ty, vtable: Addr): Wire {
    WTuple([WInt(Offset(p.anchor, vtable)), WInt(p.bin.buildId), WInt(p.bin.typeId(t))])
  }

  /** A reference of the right layout: three integers of the right widths. */
  predicate WellShapedRef(w: Wire) {
    && w.WTuple?
    && |w.items| == 3
    && w.items[0].WInt? && w.items[0].n < Limit(Usize)
    && w.items[1].WInt? && w.items[1].n < Limit(Bits128)
    && w.items[2].WInt? && w.items[2].n < Limit(Bits64)
  }

  /** A reference that passes both checks in process `p` for trait object
      type `t`. */
  predicate ValidRef(p: Process, t: Ty, w: Wire) {
    && WellShapedRef(w)
    && w.items[1].n == p.bin.buildId
    && w.items[2].n == p.bin.typeId(t)
  }

  /** Reads element 0 for trait object type `t`: the layout first, then the
      build id, then the trait object's `type_id`; only then is the offset
      turned into an address, which is not itself checked. */
  function DecodeVtableRef(p: Process, t: Ty, w: Wire): (r: Outcome<Addr>)
    ensures r.Recoverable()
    ensures r.Ok? <==> ValidRef(p, t, w)
    ensures r.Ok? ==> r.value == Resolve(p.anchor, w.items[0].n)
    ensures WellShapedRef(w) && w.items[1].n != p.bin.buildId ==> r == Err(BuildIdMismatch)
    ensures (WellShapedRef(w) && w.items[1].n == p.bin.buildId && w.items[2].n != p.bin.typeId(t))
            ==> r == Err(TraitMismatch)
  {
    if !w.WTuple? then Err(InvalidType)
    else if |w.items| < 1 then Err(InvalidLength(0))
    else
      var off :- ReadUint(w.items[0], Usize);
      if |w.items| < 2 then Err(InvalidLength(1))
      else
        var build :- ReadUint(w.items[1], Bits128);
        if |w.items| < 3 then Err(InvalidLength(2))
        else
          var tid :- ReadUint(w.items[2], Bits64);
          if |w.items| > 3 then Err(TrailingElements)
          else if build != p.bin.buildId then Err(BuildIdMismatch)
          else if tid != p.bin.typeId(t) then Err(TraitMismatch)
          else Ok(Resolve(p.anchor, off))
  }

  /** A reference written in one process and read, for the same trait object
      type, in a relocated invocation of the same binary denotes the
      relocated vtable. */
  lemma VtableRefRoundTrip(a: Process, b: Process, d: int, t: Ty, vtable: Addr)
    requires Relocated(a, b, d)
    ensures DecodeVtableRef(b, t, EncodeVtableRef(a, t, vtable)) == Ok(Shift(vtable, d))
  {
    RelocatedResolve(a.anchor, vtable, d);
  }

  /** A reference written by another binary is rejected with a recoverable
      error before its offset is used. */
  lemma ForeignBuildRejected(a: Process, c: Process, t: Ty, u: Ty, vtable: Addr)
    requires c.bin.buildId != a.bin.buildId
    ensures DecodeVtableRef(c, u, EncodeVtableRef(a, t, vtable)) == Err(BuildIdMismatch)
  {
  }

  /** A reference written for one trait object type and read as another
      (in an invocation of the same binary) is rejected with a recoverable
      error. */
  lemma OtherTraitObjectRejected(a: Process, b: Process, t: Ty, u: Ty, vtable: Addr)
    requires b.bin == a.bin
    requires a.bin.typeId(t) != a.bin.typeId(u)
    ensures DecodeVtableRef(b, u, EncodeVtableRef(a, t, vtable)) == Err(TraitMismatch)
  {
  }
}

=== FILE: scenarios.dfy ===
/** Concrete cases, played out in a small example binary.  Two are the
    crate's own tests: a `Box<dyn Any>` nested inside another, sent to a
    copy of the process loaded elsewhere and downcast twice; and a
    `Box<dyn Debug>` that reads back as itself but is refused as a
    `Box<dyn Any>`.  The others illustrate the reader's unchecked paths: a
    forged offset, and payloads that fail, for a type without and with a
    destructor, with the reader as written and as intended. */
module Scenarios {
  import opened Wire
  import opened Image
  import opened Relative
  import opened Protocol
  import opened Properties
  import opened Convenience
  import opened Intended

  /** The example binary's type ids: distinct for every type used below. */
  function ExampleTypeId(t: Ty): TypeId {
    match t
    case TUint(Bits8) => 1
    case TUint(Usize) => 2
    case TWrapper(Box, TDyn(Any, false)) => 3
    case TDyn(Any, false) => 4
    case TDyn(Debug, false) => 5
    case TString => 6
    case _ => 0
  }

  const ExampleBinary := Binary(0xB1D, ExampleTypeId)

  /** One invocation: the anchor is the `dyn Any` vtable for `u8`. */
  const Here := Process(ExampleBinary, 0x1000, map[
    0x1000 := Vtable(Any, TUint(Bits8)),
    0x2000 := Vtable(Any, TUint(Usize)),
    0x3000 := Vtable(Any, TWrapper(Box, TDyn(Any, false))),
    0x4000 := Vtable(Debug, TUint(Bits8)),
    0x5000 := Vtable(Any, TString)])

  /** Another invocation of the same binary, loaded 0x10_0000 bytes higher. */
  const There := Process(ExampleBinary, 0x10_1000, map[
    0x10_1000 := Vtable(Any, TUint(Bits8)),
    0x10_2000 := Vtable(Any, TUint(Usize)),
    0x10_3000 := Vtable(Any, TWrapper(Box, TDyn(Any, false))),
    0x10_4000 := Vtable(Debug, TUint(Bits8)),
    0x10_5000 := Vtable(Any, TString)])

  const AnyBoxTy := TWrapper(Box, TDyn(Any, false))

  /** Each of `Here`'s vtables is at its shifted address in `There`. */
  lemma HereToThere(x: Addr)
    requires x in Here.vtables
    ensures Shift(x, 0x10_0000) in There.vtables && There.vtables[Shift(x, 0x10_0000)] == Here.vtables[x]
  {
    assert x == 0x1000 || x == 0x2000 || x == 0x3000 || x == 0x4000 || x == 0x5000;
  }

  /** Each of `There`'s vtables is at its unshifted address in `Here`. */
  lemma ThereToHere(y: Addr)
    requires y in There.vtables
    ensures Unshift(y, 0x10_0000) in Here.vtables && Here.vtables[Unshift(y, 0x10_0000)] == There.vtables[y]
  {
    assert y == 0x10_1000 || y == 0x10_2000 || y == 0x10_3000 || y == 0x10_4000 || y == 0x10_5000;
  }

  lemma HereIsValid()
    ensures ValidProcess(Here)
  {
  }

  lemma ThereIsHereRelocated()
    ensures ValidProcess(Here) && Relocated(Here, There, 0x10_0000)
  {
    HereIsValid();
    assert There.bin == Here.bin && There.anchor == Shift(Here.anchor, 0x10_0000);
    forall x: Addr | x in Here.vtables
      ensures Shift(x, 0x10_0000) in There.vtables && There.vtables[Shift(x, 0x10_0000)] == Here.vtables[x]
    {
      HereToThere(x);
    }
    forall y: Addr | y in There.vtables
      ensures Unshift(y, 0x10_0000) in Here.vtables && Here.vtables[Unshift(y, 0x10_0000)] == There.vtables[y]
    {
      ThereToHere(y);
    }
  }

  /** The `usize` 987654321 as a `st::Box<dyn Any>`, and that box inside
      another `st::Box<dyn Any>`; `InnerThere` is the inner box as the other
      invocation sees it. */
  const Inner := New(Box, Object(0x2000, Num(987_654_321)))
  const Outer := New(Box, Object(0x3000, Inner))
  const InnerThere := New(Box, Object(0x10_2000, Num(987_654_321)))

  lemma InnerTyped()
    ensures ValidProcess(Here) && Relocated(Here, There, 0x10_0000)
    ensures HasType(Here, AnyBoxTy, Inner)
    ensures ShiftValue(Inner, 0x10_0000) == InnerThere
  {
    ThereIsHereRelocated();
    assert HasType(Here, TDyn(Any, false), Inner.contents);
  }

  /** The nested box, sent to the other invocation, downcasts to the inner
      box as that invocation sees it, whose own `into_any` downcasts to the
      number. */
  lemma NestedAnyScenario()
    ensures ValidProcess(Here) && ValidProcess(There)
    ensures HasType(Here, AnyBoxTy, Outer)
    ensures var r := Deserialize(There, AnyBoxTy, Serialize(Here, AnyBoxTy, Outer));
      && r.Ok?
      && HasType(There, AnyBoxTy, r.value)
      && Downcast(There, IntoAny(There, false, r.value), AnyBoxTy) == Some(InnerThere)
    ensures HasType(There, AnyBoxTy, InnerThere)
    ensures Downcast(There, IntoAny(There, false, InnerThere), TUint(Usize)) == Some(Num(987_654_321))
  {
    InnerTyped();
    DowncastAfterRoundTrip(Here, There, 0x10_0000, false, AnyBoxTy, Inner, 0x3000);
    InnerDowncastScenario();
  }

  /** The inner box's own `into_any` downcasts to the number. */
  lemma InnerDowncastScenario()
    ensures ValidProcess(There)
    ensures HasType(There, AnyBoxTy, InnerThere)
    ensures Downcast(There, IntoAny(There, false, InnerThere), TUint(Usize)) == Some(Num(987_654_321))
  {
    InnerTyped();
    RelocatedValid(Here, There, 0x10_0000);
    DowncastToOriginal(There, false, TUint(Usize), Num(987_654_321), 0x10_2000);
  }

  /** A `st::Box<dyn Debug>` holding the `u8` 78 reads back as a
      `st::Box<dyn Debug>`, and as a `st::Box<dyn Any>` is refused with a
      recoverable error. */
  lemma DebugReadAsAnyScenario()
    ensures ValidProcess(Here)
    ensures var v := New(Box, Object(0x4000, Num(78)));
      var ty := TWrapper(Box, TDyn(Debug, false));
      && HasType(Here, ty, v)
      && Deserialize(Here, ty, Serialize(Here, ty, v)) == Ok(v)
      && Deserialize(Here, AnyBoxTy, Serialize(Here, ty, v)) == Err(TraitMismatch)
  {
    var v := New(Box, Object(0x4000, Num(78)));
    var ty := TWrapper(Box, TDyn(Debug, false));
    HereIsValid();
    RelocatedByZero(Here);
    assert HasType(Here, TDyn(Debug, false), v.contents);
    SameProcessRoundTrip(Here, ty, v);
    WrapperSerializeTransparent(Here, Box, TDyn(Debug, false), v.contents);
    OtherTraitObjectRejectedEnvelope(Here, Here, 0, TDyn(Debug, false), TDyn(Any, false), v.contents);
    WrapperDeserializeTransparent(Here, Box, TDyn(Any, false), Serialize(Here, TDyn(Debug, false), v.contents));
  }

  /** A reference forged with this binary's build id and the `dyn Any`
      `type_id`, whose offset lands on the `dyn Debug` vtable for `u8`: it
      passes both checks, and using that vtable as a `dyn Any` one is
      undefined behaviour. */
  lemma ForgedOffsetScenario()
    ensures ValidProcess(Here)
    ensures Resolve(Here.anchor, 0x3000) == 0x4000 && Here.vtables[0x4000].bound == Debug
    ensures var forged := WTuple([WInt(0x3000), WInt(0xB1D), WInt(ExampleTypeId(TDyn(Any, false)))]);
      Deserialize(Here, TDyn(Any, false), WTuple([forged, WInt(ExampleTypeId(TUint(Bits8))), WInt(78)])) == Undefined
  {
    HereIsValid();
  }

  /** A genuine reference and concrete `type_id` followed by a payload the
      concrete type rejects.  For a `u8`, which has no destructor, the error
      comes back as a custom error. */
  lemma PayloadFailureScenario()
    ensures ValidProcess(Here)
    ensures var ref := WTuple([WInt(0), WInt(0xB1D), WInt(ExampleTypeId(TDyn(Any, false)))]);
      Deserialize(Here, TDyn(Any, false), WTuple([ref, WInt(ExampleTypeId(TUint(Bits8))), WInt(300)]))
        == Err(Custom(InvalidValue))
  {
    HereIsValid();
    var ref := WTuple([WInt(0), WInt(0xB1D), WInt(ExampleTypeId(TDyn(Any, false)))]);
    assert DecodeVtableRef(Here, TDyn(Any, false), ref) == Ok(0x1000);
    assert Here.vtables[0x1000] == Vtable(Any, TUint(Bits8));
    assert PlainDecode(Here, TUint(Bits8), WInt(300)) == Err(InvalidValue);
  }

  /** The same for a `String`: the uninitialised slot is dropped on the way
      out, running `String`'s destructor on it, which is undefined
      behaviour. */
  lemma StringPayloadFailureScenario()
    ensures ValidProcess(Here)
    ensures var ref := WTuple([WInt(0x4000), WInt(0xB1D), WInt(ExampleTypeId(TDyn(Any, false)))]);
      Deserialize(Here, TDyn(Any, false), WTuple([ref, WInt(ExampleTypeId(TString)), WInt(5)])) == Undefined
  {
    HereIsValid();
    var ref := WTuple([WInt(0x4000), WInt(0xB1D), WInt(ExampleTypeId(TDyn(Any, false)))]);
    assert DecodeVtableRef(Here, TDyn(Any, false), ref) == Ok(0x5000);
    assert Here.vtables[0x5000] == Vtable(Any, TString);
    assert PlainDecode(Here, TString, WInt(5)) == Err(InvalidType);
  }

  /** The corrected reader on the same `String` envelope returns the
      payload's invalid-type error as a custom error. */
  lemma StringPayloadFailureIntendedScenario()
    ensures ValidProcess(Here)
    ensures var ref := WTuple([WInt(0x4000), WInt(0xB1D), WInt(ExampleTypeId(TDyn(Any, false)))]);
      DecodeTraitObjectIntended(Here, TDyn(Any, false), WTuple([ref, WInt(ExampleTypeId(TString)), WInt(5)]))
        == Err(Custom(InvalidType))
  {
    HereIsValid();
    var ref := WTuple([WInt(0x4000), WInt(0xB1D), WInt(ExampleTypeId(TDyn(Any, false)))]);
    assert DecodeVtableRef(Here, TDyn(Any, false), ref) == Ok(0x5000);
    assert Here.vtables[0x5000] == Vtable(Any, TString);
    assert PlainDecode(Here, TString, WInt(5)) == Err(InvalidType);
  }
}

=== FILE: wire.dfy ===
/** The serde data model as the protocol sees it: a tree of wire nodes, the
    errors a deserializer reports, and the outcome of a decode, which besides
    success and an ordinary error can be a panic or undefined behaviour. */
module Wire {

  const U64_LIMIT: nat := 0x1_0000_0000_0000_0000
  const U128_LIMIT: nat := 0x1_0000_0000_0000_0000_0000_0000_0000_0000

  /** The unsigned integer widths a wire integer can be read as.  `Usize` is
      the pointer width of a 64-bit target; 32-bit targets are not modelled. */
  datatype Width = Bits8 | Bits16 | Bits32 | Bits64 | Usize | Bits128

  /** One past the largest integer of width `w`. */
  function Limit(w: Width): (n: nat)
    ensures n >= 0x100
  {
    match w
    case Bits8 => 0x100
    case Bits16 => 0x1_0000
    case Bits32 => 0x1_0000_0000
    case Bits64 => U64_LIMIT
    case Usize => U64_LIMIT
    case Bits128 => U128_LIMIT
  }

  /** A tree in serde's data model: what a serializer is handed for a value,
      before any format flattens it.  A sequence is length-prefixed and read in full; a
      tuple has a fixed arity that the reader states before reading it. */
  datatype Wire =
    | WInt(n: nat)
    | WStr(s: string)
    | WSeq(items: seq<Wire>)
    | WTuple(items: seq<Wire>)

  /** The recoverable errors serde's `de::Error` offers and the crate uses. */
  datatype DecodeError =
    | InvalidType                 // the node is not of the requested kind
    | InvalidValue                // an integer does not fit the requested width
    | InvalidLength(len: nat)     // a tuple ended after `len` elements
    | TrailingElements            // a tuple held more elements than requested
    | BuildIdMismatch             // a vtable reference from another binary
    | TraitMismatch               // a vtable reference for another trait object type
    | Custom(inner: DecodeError)  // an erased payload's error, re-raised by `Error::custom`

  /** How a decode ends: a value, an ordinary error returned to the caller, a
      panic (`Abort`), or undefined behaviour (`Undefined`), which is what
      happens when an unchecked address is used as a vtable. */
  datatype Outcome<+T> = Ok(value: T) | Err(error: DecodeError) | Abort | Undefined {

    predicate IsFailure() {
      !Ok?
    }

    function PropagateFailure<U>(): (r: Outcome<U>)
      requires !Ok?
      ensures !r.Ok?
    {
      match this
      case Err(e) => Err(e)
      case Abort => Abort
      case Undefined => Undefined
    }

    function Extract(): T
      requires Ok?
    {
      value
    }

    /** True of the outcomes a caller sees as a returned `Result`. */
    predicate Recoverable() {
      Ok? || Err?
    }
  }

  /** Reads one integer node as an integer of width `w`, the way serde's
      primitive visitors do: a node of another kind is an invalid type, an
      integer too large for the width an invalid value. */
  function ReadUint(node: Wire, w: Width): (r: Outcome<nat>)
    ensures r.Recoverable()
    ensures r.Ok? <==> node.WInt? && node.n < Limit(w)
    ensures r.Ok? ==> r.value == node.n && r.value < Limit(w)
    ensures r.Err? && node.WInt? ==> r.error == InvalidValue
    ensures r.Err? && !node.WInt? ==> r.error == InvalidType
  {
    match node
    case WInt(n) => if n < Limit(w) then Ok(n) else Err(InvalidValue)
    case _ => Err(InvalidType)
  }
}
